=== FILE: README.md ===
# Recording screen and permission gate of a React Native video capture app

This project models, in Dafny, the two pieces of sequential logic in a small
React Native app that records video stamped with time and location:

- the recording screen (`src/component/camera.jsx`): its state record
  (`recording`, `compressing`, `progress`, `videoCount`, `elapsedTime`, `blink`,
  `dateTime`, `selectedQuality`), the events that change it (record button,
  quality buttons, the capture's finish and error callbacks, compressor
  progress and settlement, the 1 s and 500 ms interval ticks), the
  `MM:SS` timer text `formatTime`, and `handleCompression`'s save strategy by
  platform and OS version with its single alert;
- the app shell (`App.jsx`): how the permission answers reduce to one
  `permissionsGranted` flag, the reverse-geocoding fallback of
  `getAddressFromLatLng`, and the gating of the position watch and of the
  camera screen on that flag.

Every platform call (camera, compressor, file system, gallery, HTTP, GPS,
permission dialogs) is an input: an outcome that resolves or rejects, or an
answer string. State is an immutable record; each event is a pure step that
returns the next state and the effects issued (capture commands, platform
calls, alerts).

Files: `base.dfy` (shared `Option`, `Platform`, `Alert`), `timeformat.dfy`,
`quality.dfy`, `savepolicy.dfy`, `recorder.dfy`, `permissions.dfy`,
`appshell.dfy`.

## Design notes

- The capture callbacks are created when record is pressed and close over that
  render, so `handleCompression` uses the `selectedQuality` of the press, not a
  later choice. The state keeps it as `recordingQuality`. `job` keeps the
  settings `handleCompression` read on entry, because the success alert uses
  their label.
- The component has no session ids, no "already active" rejection, no guard
  against stale callbacks, no deletion of the raw or compressed files, no
  retries and no cancellation. The model has none of them either. A second
  start is prevented only by the button: it reads "Stop" while recording and
  is disabled while compressing.
- The save strategy differs between platforms. Android 13 and later tries the
  gallery and falls back to a DCIM copy. Android 12 and older only copies.
  iOS only saves to the gallery and has no fallback. On Android 13+ a
  successful gallery save shows no alert. `videoCount` goes up when the
  capture finishes, even if compression or saving fails later. A capture
  error shows no alert.
- Which events can occur depends on the state. A capture callback answers a
  running capture. A compression callback answers a running compression. A
  quality button carries one of the map's keys. `Recorder.Producible` states
  this, and `Recorder.Valid` holds in every state reached that way.
- `Platform.OS` values other than Android all take the code's iOS branch, and
  are written `Ios`.

## Model

| member | source | states |
|---|---|---|
| `TimeFormat.Decimal` | src/component/camera.jsx:96-97 | `String(n)` of a whole number is a non-empty run of decimal digits with no leading zero unless the number is zero |
| `TimeFormat.FormatTime` | src/component/camera.jsx:95-99 | the timer text is at least five characters: a digits-only minutes field, a colon third from the end, and a two-digit seconds field; it is exactly five characters (`MM:SS`, colon at index 2) exactly when the time is under 6000 s |
| `TimeFormat.FormatTimeRoundTrip` | src/component/camera.jsx:95-99 | reading the timer text back gives the whole minutes before the colon and the remainder below 60 after it. So minutes × 60 + seconds is the original number of seconds, and a text such as `"00:75"` is never produced |
| `TimeFormat.FormatTimeInjective` | src/component/camera.jsx:95-99 | two different elapsed times never display as the same text |
| `TimeFormat.FormatTimePadsOnlyToTwo` | src/component/camera.jsx:96 | the minutes are padded to two digits and no further: the text starts with `0` only below ten minutes, so 6000 s shows as `"100:00"` and never `"0100:00"` |
| `Quality.QualityKeysCoverMap` | src/component/camera.jsx:18-30 | the quality buttons offer exactly the keys of `qualityMap`, the default `"720p"` is one of them, and each preset's label is its key |
| `Recorder.InitialValid` | src/component/camera.jsx:27-34 | the screen as mounted is valid: not recording, not compressing, no videos counted, and the selected quality is a map key |
| `Recorder.Step` | src/component/camera.jsx:59-191 | one event on the recording screen. Valid states stay valid: the selected quality is a map key, elapsed time is 0 and the date text empty when not recording, and recording and compressing are never both on. `videoCount` rises by exactly one on a finished recording and otherwise never changes. Only a press with a camera attached, while idle and not compressing, starts recording; it resets elapsed time and issues the capture start. Only the capture's finish or error stops recording. A press while recording issues only the stop command and changes nothing. The timer adds exactly one per 1 s tick while recording. The dot toggles only on a 500 ms tick while recording. The date text changes only to the tick's time while recording, or to `""` when recording stops. `compressing` turns on only when a recording finishes, with progress 0 and the compress call issued. It turns off only when compression settles. A capture error changes neither the count nor the compression state. The selection changes only through a quality button. A press with no camera attached changes nothing and emits nothing. The callbacks' quality changes only when a recording starts, and the job settings only when one finishes. Only the button, the capture's finish and the compression's settlement emit effects. A quality button always sets the selection to its key, a clock tick while recording always sets the date text to its time, and a progress report always sets the progress to its value |
| `Recorder.Replay` | src/component/camera.jsx:106-110 | over any sequence of events the environment can deliver, every state stays valid, and `videoCount` grows by exactly the number of finished recordings |
| `Recorder.TicksWhileRecording` | src/component/camera.jsx:59-78 | while a recording runs, the elapsed time equals the number of 1 s timer ticks, and the dot's state is flipped once per 500 ms tick |
| `Recorder.Render` | src/component/camera.jsx:198-229 | the record button reads "Stop" while recording and "Record" otherwise, and is enabled exactly when not compressing. The compressing banner is shown exactly while compressing. The overlay is shown exactly while recording. It shows the red dot exactly when the blink flag is on, and the current date text. Its timer reads back as the whole minutes and the remaining seconds below 60, and is five characters exactly below 6000 s. The address line appears exactly for a non-empty address |
| `Recorder.PressTwice` | src/component/camera.jsx:101-125 | from an idle screen with a camera attached, the first press emits only the capture start, sets the recording flag, resets the timer and fixes the quality the capture's callbacks will use. A second press emits only the stop command and changes nothing else |
| `Recorder.JobKeptWhileCompressing` | src/component/camera.jsx:123-171 | while a compression runs and has not settled, any deliverable events call nothing, keep the compression running with no capture, and keep the job's settings, including the label the success alert will use. Progress reports and quality presses are among those events |
| `Recorder.FinishEventsSettle` | src/component/camera.jsx:106-171 | a running capture finishes, any deliverable events arrive while the compression runs, and then the compression settles. Together these emit exactly the calls and the alert of `handleCompression` for the quality the capture's callbacks carry. The whole counts one video and ends neither recording nor compressing |
| `Recorder.QualityKeptWhileRecording` | src/component/camera.jsx:101-116 | whatever events arrive while a capture runs, quality presses included, the capture keeps running and its callbacks keep the quality fixed at the press, until it finishes or fails |
| `Recorder.QualityFixedAtPress` | src/component/camera.jsx:101-191 | the sequence is a press on an idle screen, any deliverable events while the capture runs, the finish, any deliverable events while the compression runs, and the settling. Its calls and alert are exactly those of `handleCompression` for the quality selected at the press. A quality chosen later is ignored, including one chosen during compression, which only the banner shows |
| `SavePolicy.ErrorText` | src/component/camera.jsx:165-167 | the error alert text is the thrown message when present and non-empty, and `"Video compression failed"` otherwise |
| `SavePolicy.Save` | src/component/camera.jsx:144-164 | the platform branch makes one or two calls. Its success alert names the DCIM folder after the Android 12-and-older copy, and the selected quality's label otherwise |
| `SavePolicy.AfterCompress` | src/component/camera.jsx:141-167 | a rejected compression makes no further call and shows its error alert. A rejected size lookup is the only further call and shows its own error alert. Otherwise the file size is read before anything is saved |
| `SavePolicy.HandleCompression` | src/component/camera.jsx:123-171 | the run starts with the one compress call: `"file://"` + path, method `"auto"`, the preset's `maxSize`, 15 fps, audio kept, minimum bitrate 500000. No primitive is called twice. The size is read exactly when compression resolved. It calls the gallery save exactly when compression and size lookup succeed on iOS or Android 13+. It calls the DCIM copy exactly when they succeed on Android and either the OS is older than 13 or the gallery save was rejected. Any alert is titled "Success" or "Error" |
| `SavePolicy.FallbackOnlyAfterRejection` | src/component/camera.jsx:144-159 | the DCIM copy is only a fallback on Android. It comes after the gallery save, and only when that save was rejected. A successful gallery save is the last call |
| `SavePolicy.StopsAtFirstUncaughtRejection` | src/component/camera.jsx:144-170 | every call except the last resolved, apart from a rejected gallery save followed by its fallback copy. The alert is the error alert exactly when the last call was rejected, and then carries that rejection's message. The run ends without any alert exactly when a gallery save succeeded on Android 13+ |
| `SavePolicy.SuccessAlertText` | src/component/camera.jsx:147-164 | every success alert says `"Video saved to DCIM/Camera"` on Android 12 and older, and `"Video saved in <label>"` otherwise |
| `Permissions.Ask` | App.jsx:24-65 | the requests are awaited in order. If none throws, all are made and their statuses are returned in order. Otherwise the requests made are a prefix ending at the first one that threw, and every earlier one was answered |
| `Permissions.RequestAllPermissions` | App.jsx:24-80 | `permissionsGranted` is true exactly when location, camera, microphone and storage are all granted. Location means `"granted"` from the Android location request or the iOS authorization. Camera and microphone mean `"authorized"` or `"granted"`. Storage means all three media grants on Android 13+, both external-storage grants on older Android, and nothing elsewhere. A grant shows no alert. A refusal shows "Permissions required" when no request threw, and the error alert when one did. The requests stop at the first one that throws |
| `Permissions.ThrowMeansDenied` | App.jsx:75-79 | any request that throws leaves the flag false and shows the error alert |
| `AppShell.AddressFromLookup` | App.jsx:7-17 | the address is `null` exactly when fetching or parsing threw. It is the display name when that is a non-empty string, and `"No address found"` when it is missing or empty. It is never the empty string |
| `AppShell.LaunchedValid` | App.jsx:20-22 | the app as launched is valid, without the permission flag and without a position |
| `AppShell.AppStep` | App.jsx:82-100 | the watch/flag agreement is kept. A watch is registered exactly when the flag turns true and cleared exactly when it turns false. The flag after the requests settle is the all-granted reading. A refusal always shows an alert. Location and address change only through a registered watch, to the reported position and its looked-up address. A position report never changes the flag and emits nothing. Through a registered watch it always sets the location and the looked-up address. The alert shown after a permission round is exactly the one that round raised, so a grant shows none. A round emits at most one alert and at most one watch change: one effect for its alert, if any, and one for a change of the flag |
| `AppShell.Render` | App.jsx:102-117 | the camera screen, with the current address, is shown exactly when permissions are granted; otherwise the "Requesting permissions..." view |
| `AppShell.AppReplay` | App.jsx:82-100 | over any sequence of events, the position watch stays registered exactly when the permission flag is set |
| `AppShell.NothingBeforeGrant` | App.jsx:86-117 | until a permission round grants everything, the app shows only the waiting view, registers no position watch and records no position |

## Left out

- The camera screen's mount effect (`src/component/camera.jsx:38-57`) is left out. It repeats permission requests whose answers it ignores, and creates the cache folder. This is platform glue with no effect on the modelled state.
- The real camera, `Video.compress`, `RNFS`, `CameraRoll`, `fetch` and `Geolocation` are not modelled. They are foreign calls; each is an input outcome or value.
- The progress callback's `Math.floor(p * 100)` is floating point, so progress is an opaque integer input. The megabyte size log is left out for the same reason.
- `toLocaleString()` is locale dependent, so the date text is an opaque string carried by the clock tick.
- The `Date.now()` file name of the DCIM copy is opaque. The copy is one call, `CopyToDcim`.
- The reverse-geocoding URL is built from floating-point coordinates and is not modelled. A `display_name` that is not a string is not modelled either.
- Interval timing and concurrency are not modelled. The intervals become discrete tick events. The unawaited `handleCompression` becomes a progress event and a settlement event. Overlapping address lookups, which can resolve out of order, become one step per position report.
- A rejection of `camera.current.stopRecording()` or `startRecording` is not modelled. The code does not handle either one.
- Rendering is not modelled, except for the choices listed under Model: styling, layout, and the "No camera found" view. A missing camera appears only as a press with no camera attached, which does nothing.
- `src/component/mainindex.jsx` is not part of this model. It is a second geolocation display screen.
- The requirement that the selected quality is a map key is kept as an invariant (`Recorder.Valid`) over deliverable events. `Recorder.Step` itself requires only that the quality captured by the running recording is a key, because the settings lookup needs it.
- TimeFormat.Decimal: stated for every whole number. JavaScript's `String(n)` switches to exponent form (`"1e+21"`) from 10^21, which an elapsed time counted in seconds never reaches.
- The permission requests run once, when the app mounts (`App.jsx:82-84`). After a refusal the app stays on the waiting view. `AppShell.AppStep` accepts any number of permission rounds, including a grant followed by a refusal that clears the watch. The source never reaches that sequence, but the stated properties hold over this wider set of event sequences.

=== FILE: appshell.dfy ===
/** The app shell (`App`): reverse-geocoding fallback, the permission flag, and
    the position watch and camera screen it gates. */
module AppShell {
  import opened Base
  import Permissions

  const NoAddressFound := "No address found"

  /** How the reverse-geocoding request settled: `fetch` or `resp.json()` threw,
      or the parsed body's `display_name` (absent, or a string). */
  datatype Lookup = LookupThrew | Parsed(displayName: Option<string>)

  /** `getAddressFromLatLng`: the display name when it is a non-empty string,
      the fixed fallback text when it is missing or empty, `null` on an exception. */
  function AddressFromLookup(l: Lookup): (a: Option<string>)
    ensures a.None? <==> l.LookupThrew?
    ensures a.Some? ==> a.value != ""
    ensures l.Parsed? && l.displayName.Some? && l.displayName.value != "" ==> a == l.displayName
    ensures l.Parsed? && (l.displayName.None? || l.displayName.value == "") ==> a == Some(NoAddressFound)
  {
    match l
    case LookupThrew => None
    case Parsed(name) => if name.Some? && name.value != "" then name else Some(NoAddressFound)
  }

  datatype Position = Position(latitude: real, longitude: real)

  /** The App component's state; `watching` says whether a position watch is
      registered. `address` starts as the empty string. */
  datatype App = App(permissionsGranted: bool, watching: bool, location: Option<Position>, address: Option<string>)

  const Launched: App := App(false, false, None, Some(""))

  /** The app as launched satisfies the invariant `AppReplay` starts from. */
  lemma LaunchedValid()
    ensures AppValid(Launched) && !Launched.permissionsGranted && Launched.location.None?
  {
  }

  datatype AppEvent =
    | PermissionsSettled(platform: Platform, answer: Permissions.Request -> Permissions.Reply)
    | PositionReported(position: Position, lookup: Lookup)

  datatype AppEffect = StartWatch | ClearWatch | ShowAlert(alert: Alert)

  datatype AppTransition = AppTransition(next: App, effects: seq<AppEffect>)

  predicate AppValid(a: App) {
    a.watching == a.permissionsGranted
  }

  /** Settling the permission requests sets the flag; the watch effect, keyed on
      the flag, registers a watch when it turns true and clears it when it turns
      false. A position report updates location and address only through a
      registered watch. */
  function AppStep(a: App, e: AppEvent): (t: AppTransition)
    requires AppValid(a)
    ensures AppValid(t.next)
    ensures StartWatch in t.effects <==> !a.permissionsGranted && t.next.permissionsGranted
    ensures ClearWatch in t.effects <==> a.permissionsGranted && !t.next.permissionsGranted
    ensures t.next.location != a.location || t.next.address != a.address ==>
      a.permissionsGranted && e.PositionReported? &&
      t.next.location == Some(e.position) && t.next.address == AddressFromLookup(e.lookup)
    ensures e.PermissionsSettled? ==>
      t.next.permissionsGranted == Permissions.AllGranted(e.platform, e.answer)
    ensures e.PermissionsSettled? && !t.next.permissionsGranted ==>
      exists al :: ShowAlert(al) in t.effects
    // the alert shown is exactly the one the request round raised: none on a grant
    ensures e.PermissionsSettled? ==>
      forall al :: ShowAlert(al) in t.effects <==> Permissions.RequestAllPermissions(e.platform, e.answer).alert == Some(al)
    // a report never touches the flag, and through a watch it always updates both fields
    // one alert at most and one watch change at most per round
    ensures e.PermissionsSettled? ==>
      |t.effects| == (if Permissions.RequestAllPermissions(e.platform, e.answer).alert.Some? then 1 else 0)
                     + (if a.permissionsGranted != t.next.permissionsGranted then 1 else 0)
    ensures e.PositionReported? ==> t.next.permissionsGranted == a.permissionsGranted && t.effects == []
    ensures e.PositionReported? && a.watching ==>
      t.next.location == Some(e.position) && t.next.address == AddressFromLookup(e.lookup)
  {
    match e
    case PermissionsSettled(platform, answer) =>
      var g := Permissions.RequestAllPermissions(platform, answer);
      var alerts := if g.alert.Some? then [ShowAlert(g.alert.value)] else [];
      var watch :=
        if g.granted && !a.permissionsGranted then [StartWatch]
        else if !g.granted && a.permissionsGranted then [ClearWatch]
        else [];
      AppTransition(a.(permissionsGranted := g.granted, watching := g.granted), alerts + watch)
    case PositionReported(position, lookup) =>
      if a.watching then AppTransition(a.(location := Some(position), address := AddressFromLookup(lookup)), [])
      else AppTransition(a, [])
  }

  datatype AppView = RequestingPermissions | CameraScreen(address: Option<string>)

  /** The waiting view until the flag is set, the camera screen after. */
  function Render(a: App): (v: AppView)
    ensures v.CameraScreen? <==> a.permissionsGranted
    ensures v.CameraScreen? ==> v.address == a.address
  {
    if a.permissionsGranted then CameraScreen(a.address) else RequestingPermissions
  }

  function AppReplay(a: App, es: seq<AppEvent>): (t: AppTransition)
    requires AppValid(a)
    ensures AppValid(t.next)
    decreases |es|
  {
    if es == [] then AppTransition(a, [])
    else
      var first := AppStep(a, es[0]);
      var rest := AppReplay(first.next, es[1..]);
      AppTransition(rest.next, first.effects + rest.effects)
  }

  /** Until some permission request round grants everything, the app shows the
      waiting view, registers no watch and never learns a position. */
  lemma {:induction false} NothingBeforeGrant(a: App, es: seq<AppEvent>)
    requires AppValid(a) && !a.permissionsGranted && a.location.None?
    requires forall i :: 0 <= i < |es| && es[i].PermissionsSettled? ==>
      !Permissions.AllGranted(es[i].platform, es[i].answer)
    ensures Render(AppReplay(a, es).next) == RequestingPermissions
    ensures AppReplay(a, es).next.location.None?
    ensures StartWatch !in AppReplay(a, es).effects
    decreases |es|
  {
    if es != [] {
      var first := AppStep(a, es[0]);
      assert !first.next.permissionsGranted && first.next.location.None?;
      NothingBeforeGrant(first.next, es[1..]);
    }
  }
}

=== FILE: base.dfy ===
/** Small value types shared by the recording screen and the app shell. */
module Base {

  /** A value that may be absent (`null`/`undefined` on the JavaScript side). */
  datatype Option<+T> = None | Some(value: T)

  /** What `Platform.OS` and `Platform.Version` report. `Android` carries the API
      level; every other OS takes the code's non-Android branch, written `Ios`. */
  datatype Platform = Android(apiLevel: int) | Ios

  /** One native `Alert.alert(title, message)` dialog. */
  datatype Alert = Alert(title: string, message: string)
}

=== FILE: permissions.dfy ===
/** `requestAllPermissions`: the permission requests the app makes at start-up
    and how their answers reduce to one `permissionsGranted` flag. Each request
    is answered with a status string or throws. */
module Permissions {
  import opened Base

  /** `PermissionsAndroid.RESULTS.GRANTED`. */
  const AndroidGranted := "granted"

  /** From this Android API level (Android 13) storage means the three media grants. */
  const MediaPermissionsApiLevel := 33

  datatype Request =
    | FineLocation          // PermissionsAndroid ACCESS_FINE_LOCATION
    | WhenInUseLocation     // Geolocation.requestAuthorization("whenInUse")
    | CameraAccess          // Camera.requestCameraPermission()
    | MicrophoneAccess      // Camera.requestMicrophonePermission()
    | ReadMediaVideo
    | ReadMediaImages
    | ReadMediaAudio
    | WriteExternalStorage
    | ReadExternalStorage

  /** How one awaited request settled. */
  datatype Reply = Answered(status: string) | Threw

  /** The outcome: the flag, the requests actually made, and the alert shown. */
  datatype Gate = Gate(granted: bool, asked: seq<Request>, alert: Option<Alert>)

  const PermissionsRequired := Alert("Permissions required", "All permissions are required to use this app.")
  const PermissionError := Alert("Error", "Failed to request permissions.")

  function LocationRequest(p: Platform): Request {
    if p.Android? then FineLocation else WhenInUseLocation
  }

  function StorageRequests(p: Platform): seq<Request> {
    match p
    case Android(level) =>
      if level >= MediaPermissionsApiLevel then [ReadMediaVideo, ReadMediaImages, ReadMediaAudio]
      else [WriteExternalStorage, ReadExternalStorage]
    case Ios => []
  }

  /** The requests in the order the code awaits them. */
  function Plan(p: Platform): seq<Request> {
    [LocationRequest(p), CameraAccess, MicrophoneAccess] + StorageRequests(p)
  }

  /** The requests made and, when none threw, the statuses in request order. */
  datatype Asked = Asked(made: seq<Request>, statuses: Option<seq<string>>)

  /** What awaiting `reqs` in order yields: with no exception, every request
      made and every status in order; otherwise the requests made are a prefix
      ending at the first one that threw. */
  predicate AskedInOrder(reqs: seq<Request>, answer: Request -> Reply, r: Asked) {
    && (r.statuses.Some? <==> forall i :: 0 <= i < |reqs| ==> answer(reqs[i]).Answered?)
    && (r.statuses.Some? ==>
         r.made == reqs && |r.statuses.value| == |reqs| &&
         forall i :: 0 <= i < |reqs| ==> answer(reqs[i]) == Answered(r.statuses.value[i]))
    && (r.statuses.None? ==>
         0 < |r.made| <= |reqs| && r.made == reqs[..|r.made|] && answer(r.made[|r.made| - 1]).Threw? &&
         forall i :: 0 <= i < |r.made| - 1 ==> answer(r.made[i]).Answered?)
  }

  /** Awaits the requests one after another; the first one that throws ends the
      sequence, and no later request is made. */
  function Ask(reqs: seq<Request>, answer: Request -> Reply): (r: Asked)
    ensures AskedInOrder(reqs, answer, r)
    decreases |reqs|
  {
    if reqs == [] then Asked([], Some([]))
    else match answer(reqs[0])
      case Threw => Asked([reqs[0]], None)
      case Answered(st) =>
        var rest := Ask(reqs[1..], answer);
        AnsweredThenRest(reqs, answer, st, rest);
        Asked([reqs[0]] + rest.made, if rest.statuses.Some? then Some([st] + rest.statuses.value) else None)
  }

  /** An answered first request followed by the rest of the sequence. */
  lemma AnsweredThenRest(reqs: seq<Request>, answer: Request -> Reply, st: string, rest: Asked)
    requires |reqs| > 0 && answer(reqs[0]) == Answered(st)
    requires AskedInOrder(reqs[1..], answer, rest)
    ensures AskedInOrder(reqs, answer,
      Asked([reqs[0]] + rest.made, if rest.statuses.Some? then Some([st] + rest.statuses.value) else None))
  {
    var tail := reqs[1..];
    assert forall i :: 1 <= i < |reqs| ==> reqs[i] == tail[i - 1];
    if rest.statuses.Some? {
      var sts := [st] + rest.statuses.value;
      assert [reqs[0]] + tail == reqs;
      forall i | 0 <= i < |reqs|
        ensures answer(reqs[i]) == Answered(sts[i])
      {
        if i > 0 {
          assert sts[i] == rest.statuses.value[i - 1];
        }
      }
    } else {
      var made := [reqs[0]] + rest.made;
      assert tail[..|rest.made|] == reqs[1..|made|];
      assert made == reqs[..|made|];
      assert !answer(tail[|rest.made| - 1]).Answered?;
    }
  }

  /** Camera and microphone accept either spelling of a grant. */
  predicate DeviceGranted(status: string) {
    status == "authorized" || status == "granted"
  }

  /** The location check: `RESULTS.GRANTED` on Android, `"granted"` elsewhere. */
  predicate LocationGranted(p: Platform, status: string) {
    if p.Android? then status == AndroidGranted else status == "granted"
  }

  /** The storage check over the statuses of `StorageRequests(p)`; true off Android. */
  predicate StorageGranted(p: Platform, statuses: seq<string>)
    requires |statuses| == |StorageRequests(p)|
  {
    match p
    case Android(level) =>
      if level >= MediaPermissionsApiLevel then
        statuses[0] == AndroidGranted && statuses[1] == AndroidGranted && statuses[2] == AndroidGranted
      else
        statuses[0] == AndroidGranted && statuses[1] == AndroidGranted
    case Ios => true
  }

  /** Reference reading, request by request, of what "all permissions granted" means. */
  predicate AllGranted(p: Platform, answer: Request -> Reply) {
    && answer(LocationRequest(p)) == Answered("granted")
    && answer(CameraAccess) in {Answered("authorized"), Answered("granted")}
    && answer(MicrophoneAccess) in {Answered("authorized"), Answered("granted")}
    && match p
       case Android(level) =>
         if level >= 33 then
           answer(ReadMediaVideo) == answer(ReadMediaImages) == answer(ReadMediaAudio) == Answered("granted")
         else
           answer(WriteExternalStorage) == answer(ReadExternalStorage) == Answered("granted")
       case Ios => true
  }

  predicate SomeRequestThrew(p: Platform, answer: Request -> Reply) {
    exists i :: 0 <= i < |Plan(p)| && answer(Plan(p)[i]).Threw?
  }

  /** The check on the answered statuses agrees with the request-by-request reading. */
  lemma StatusesReading(p: Platform, answer: Request -> Reply, st: seq<string>)
    requires |st| == |Plan(p)|
    requires forall i :: 0 <= i < |Plan(p)| ==> answer(Plan(p)[i]) == Answered(st[i])
    ensures |st[3..]| == |StorageRequests(p)|
    ensures LocationGranted(p, st[0]) && DeviceGranted(st[1]) && DeviceGranted(st[2]) && StorageGranted(p, st[3..])
      <==> AllGranted(p, answer)
  {
    var plan := Plan(p);
    assert answer(LocationRequest(p)) == Answered(st[0]) by { assert plan[0] == LocationRequest(p); }
    assert answer(CameraAccess) == Answered(st[1]) by { assert plan[1] == CameraAccess; }
    assert answer(MicrophoneAccess) == Answered(st[2]) by { assert plan[2] == MicrophoneAccess; }
    var storage := StorageRequests(p);
    forall i | 0 <= i < |storage|
      ensures answer(storage[i]) == Answered(st[3 + i])
    {
      assert plan[3 + i] == storage[i];
    }
  }

  /** No request threw exactly when every request of the plan was answered. */
  lemma ThrewReading(p: Platform, answer: Request -> Reply)
    ensures SomeRequestThrew(p, answer) <==> !forall i :: 0 <= i < |Plan(p)| ==> answer(Plan(p)[i]).Answered?
  {
  }

  function RequestAllPermissions(p: Platform, answer: Request -> Reply): (g: Gate)
    ensures g.granted <==> AllGranted(p, answer)
    ensures g.granted ==> g.alert.None?
    ensures !g.granted && SomeRequestThrew(p, answer) ==> g.alert == Some(PermissionError)
    ensures !g.granted && !SomeRequestThrew(p, answer) ==> g.alert == Some(PermissionsRequired)
    ensures SomeRequestThrew(p, answer) ==>
      0 < |g.asked| <= |Plan(p)| && g.asked == Plan(p)[..|g.asked|] && answer(g.asked[|g.asked| - 1]).Threw? &&
      forall i :: 0 <= i < |g.asked| - 1 ==> answer(g.asked[i]).Answered?
    ensures !SomeRequestThrew(p, answer) ==> g.asked == Plan(p)
  {
    var asked := Ask(Plan(p), answer);
    ThrewReading(p, answer);
    match asked.statuses
    case None =>
      AllGrantedAnswersAll(p, answer);
      Gate(false, asked.made, Some(PermissionError))
    case Some(st) =>
      StatusesReading(p, answer, st);
      if LocationGranted(p, st[0]) && DeviceGranted(st[1]) && DeviceGranted(st[2]) && StorageGranted(p, st[3..])
      then Gate(true, asked.made, None)
      else Gate(false, asked.made, Some(PermissionsRequired))
  }

  /** Everything granted means every request was answered. */
  lemma AllGrantedAnswersAll(p: Platform, answer: Request -> Reply)
    ensures AllGranted(p, answer) ==> forall i :: 0 <= i < |Plan(p)| ==> answer(Plan(p)[i]).Answered?
  {
    if AllGranted(p, answer) {
      forall i | 0 <= i < |Plan(p)|
        ensures answer(Plan(p)[i]).Answered?
      {
        if i >= 3 {
          assert Plan(p)[i] == StorageRequests(p)[i - 3];
        }
      }
    }
  }

  /** Any request that throws leaves the flag false and shows the error alert. */
  lemma ThrowMeansDenied(p: Platform, answer: Request -> Reply, q: Request)
    requires q in Plan(p) && answer(q).Threw?
    ensures !RequestAllPermissions(p, answer).granted
    ensures RequestAllPermissions(p, answer).alert == Some(PermissionError)
  {
    var i :| 0 <= i < |Plan(p)| && Plan(p)[i] == q;
    assert answer(Plan(p)[i]).Threw?;
  }
}

=== FILE: quality.dfy ===
/** The recording quality presets (`qualityMap`) and the default choice. */
module Quality {

  /** One entry of the quality map: the name shown (the source's `label`) and the maximum frame size
      handed to the compressor. */
  datatype Settings = Settings(name: string, maxSize: nat)

  const QualityMap: map<string, Settings> :=
    map["480p" := Settings("480p", 480), "720p" := Settings("720p", 720), "1080p" := Settings("1080p", 1080)]

  /** `Object.keys(qualityMap)`, the keys the quality buttons are built from, in order. */
  const QualityKeys: seq<string> := ["480p", "720p", "1080p"]

  /** The initial value of `selectedQuality`. */
  const DefaultQuality: string := "720p"

  /** The buttons offer exactly the map's keys, the default is one of them, and
      every preset is labelled by its own key. */
  lemma QualityKeysCoverMap()
    ensures forall k :: k in QualityKeys <==> k in QualityMap
    ensures DefaultQuality in QualityMap
    ensures forall k :: k in QualityMap ==> QualityMap[k].name == k
  {
  }
}

=== FILE: recorder.dfy ===
/** The recording screen (`CameraComponent`): its state record, the events that
    change it, and what it asks the platform to do. Camera, compressor, file
    system and gallery are outside; their results arrive as events. */
module Recorder {
  import opened Base
  import opened Quality
  import SavePolicy
  import TimeFormat

  /** The component's state. `recordingQuality` is the `selectedQuality` seen by
      the callbacks handed to the running capture (they close over the render in
      which record was pressed); `job` is the settings the running
      `handleCompression` read on entry. */
  datatype Screen = Screen(
    recording: bool,
    compressing: bool,
    progress: int,
    selectedQuality: string,
    videoCount: nat,
    dateTime: string,
    elapsedTime: nat,
    blink: bool,
    recordingQuality: string,
    job: Settings)

  const Initial: Screen :=
    Screen(false, false, 0, DefaultQuality, 0, "", 0, true, DefaultQuality, QualityMap[DefaultQuality])

  /** The screen as first mounted satisfies the invariant `Replay` starts from. */
  lemma InitialValid()
    ensures Valid(Initial) && !Initial.recording && !Initial.compressing && Initial.videoCount == 0
  {
  }

  datatype Event =
    | RecordPressed(cameraAttached: bool)  // record button; `cameraAttached` is `camera.current != null`
    | QualityPressed(key: string)          // one of the quality buttons
    | RecordingFinished(path: string)      // onRecordingFinished(video)
    | RecordingFailed                      // onRecordingError(err)
    | CompressionProgress(percent: int)    // compressor progress callback, already scaled
    | CompressionSettled(platform: Platform, outcomes: SavePolicy.Outcomes)  // rest of handleCompression
    | TimerTick                            // 1 s interval of the elapsed-time effect
    | ClockTick(now: string)               // 1 s interval of the date-time effect; `now.toLocaleString()`
    | BlinkTick                            // 500 ms interval of the red dot

  datatype Effect =
    | StartCapture
    | StopCapture
    | Call(primitive: SavePolicy.Primitive)
    | Show(alert: Alert)

  datatype Transition = Transition(next: Screen, effects: seq<Effect>)

  /** What every reachable screen satisfies. */
  predicate Valid(s: Screen) {
    && s.selectedQuality in QualityMap
    && s.recordingQuality in QualityMap
    && (!s.recording ==> s.elapsedTime == 0 && s.dateTime == "")
    && !(s.recording && s.compressing)
  }

  /** The events the environment can deliver in state `s`: quality buttons
      carry map keys, capture callbacks answer a running capture, compression
      callbacks answer a running compression. */
  predicate Producible(s: Screen, e: Event) {
    match e
    case QualityPressed(key) => key in QualityKeys
    case RecordingFinished(_) => s.recording
    case RecordingFailed => s.recording
    case CompressionProgress(_) => s.compressing
    case CompressionSettled(_, _) => s.compressing
    case _ => true
  }

  /** The record button's label and whether it accepts presses. */
  function ButtonText(s: Screen): string {
    if s.recording then "Stop" else "Record"
  }

  predicate ButtonEnabled(s: Screen) {
    !s.compressing
  }

  /** The effects of `recording` turning false: the timer resets and the
      date-time overlay is cleared. The blink flag keeps its value. */
  function Stopped(s: Screen): Screen {
    s.(recording := false, elapsedTime := 0, dateTime := "")
  }

  function Calls(ps: seq<SavePolicy.Primitive>): (es: seq<Effect>)
    ensures |es| == |ps|
    ensures forall i :: 0 <= i < |ps| ==> es[i] == Call(ps[i])
  {
    if ps == [] then [] else [Call(ps[0])] + Calls(ps[1..])
  }

  function Shown(a: Option<Alert>): seq<Effect> {
    if a.Some? then [Show(a.value)] else []
  }

  function Step(s: Screen, e: Event): (t: Transition)
    requires s.recordingQuality in QualityMap
    ensures Valid(s) && Producible(s, e) ==> Valid(t.next)
    // videoCount grows by exactly one per finished recording and never otherwise
    ensures t.next.videoCount == s.videoCount + (if e.RecordingFinished? then 1 else 0)
    // the button is disabled while compressing
    ensures s.compressing && e.RecordPressed? ==> t == Transition(s, [])
    // start: only a press with a camera attached, while idle
    ensures !s.recording && t.next.recording <==> !s.recording && !s.compressing && e == RecordPressed(true)
    ensures !s.recording && t.next.recording ==>
      t.next.elapsedTime == 0 && t.next.recordingQuality == s.selectedQuality && t.effects == [StartCapture]
    // stop: only the capture's own completion or error turns recording off
    ensures s.recording && !t.next.recording <==> s.recording && (e.RecordingFinished? || e.RecordingFailed?)
    ensures StopCapture in t.effects <==> s.recording && !s.compressing && e == RecordPressed(true)
    ensures StopCapture in t.effects ==> t == Transition(s, [StopCapture])
    // overlay ticks
    ensures s.recording && t.next.recording ==>
      t.next.elapsedTime == s.elapsedTime + (if e.TimerTick? then 1 else 0)
    ensures t.next.blink != s.blink <==> s.recording && e.BlinkTick?
    ensures s.recording && e.ClockTick? ==> t.next.dateTime == e.now
    ensures t.next.dateTime != s.dateTime ==>
      (s.recording && e.ClockTick? && t.next.dateTime == e.now) || (!t.next.recording && t.next.dateTime == "")
    // compression flag lifecycle
    ensures !s.compressing && t.next.compressing <==> !s.compressing && e.RecordingFinished?
    ensures s.compressing && !t.next.compressing <==> s.compressing && e.CompressionSettled?
    ensures e.RecordingFinished? ==>
      t.next.compressing && t.next.progress == 0 && t.next.job == QualityMap[s.recordingQuality] &&
      t.effects == [Call(SavePolicy.CompressCall(e.path, QualityMap[s.recordingQuality]))]
    ensures e.CompressionProgress? ==> t.next.progress == e.percent
    ensures t.next.progress != s.progress ==>
      (e.CompressionProgress? && t.next.progress == e.percent) || (e.RecordingFinished? && t.next.progress == 0)
    // a capture error touches neither the count nor the compression state
    ensures e.RecordingFailed? ==>
      t.next == Stopped(s) && t.next.compressing == s.compressing && t.effects == []
    // the selection changes only through the quality buttons
    ensures e.QualityPressed? ==> t.next.selectedQuality == e.key
    ensures t.next.selectedQuality != s.selectedQuality ==> e.QualityPressed?
    // a press with no camera attached does nothing
    ensures e == RecordPressed(false) ==> t == Transition(s, [])
    // the callbacks' quality is fixed only when a recording starts
    ensures t.next.recordingQuality != s.recordingQuality ==> !s.recording && t.next.recording
    // the compression job's settings are read only when a recording finishes
    ensures t.next.job != s.job ==> e.RecordingFinished?
    // only the button, the capture's completion and the compression's settlement act on the platform
    ensures t.effects != [] ==> e.RecordPressed? || e.RecordingFinished? || e.CompressionSettled?
  {
    match e
    case RecordPressed(attached) =>
      if s.compressing || !attached then Transition(s, [])
      else if s.recording then Transition(s, [StopCapture])
      else Transition(s.(recording := true, elapsedTime := 0, recordingQuality := s.selectedQuality), [StartCapture])
    case QualityPressed(key) =>
      Transition(s.(selectedQuality := key), [])
    case RecordingFinished(path) =>
      var settings := QualityMap[s.recordingQuality];
      Transition(
        Stopped(s).(compressing := true, progress := 0, job := settings, videoCount := s.videoCount + 1),
        [Call(SavePolicy.CompressCall(path, settings))])
    case RecordingFailed =>
      Transition(Stopped(s), [])
    case CompressionProgress(p) =>
      Transition(s.(progress := p), [])
    case CompressionSettled(platform, o) =>
      var run := SavePolicy.AfterCompress(platform, s.job.name, o);
      Transition(s.(compressing := false), Calls(run.calls) + Shown(run.alert))
    case TimerTick =>
      if s.recording then Transition(s.(elapsedTime := s.elapsedTime + 1), []) else Transition(s, [])
    case ClockTick(now) =>
      if s.recording then Transition(s.(dateTime := now), []) else Transition(s, [])
    case BlinkTick =>
      if s.recording then Transition(s.(blink := !s.blink), []) else Transition(s, [])
  }

  /** A sequence of events each of which the environment can deliver when it arrives. */
  predicate Admissible(s: Screen, es: seq<Event>)
    requires Valid(s)
    decreases |es|
  {
    es == [] || (Producible(s, es[0]) && Admissible(Step(s, es[0]).next, es[1..]))
  }

  function FinishedCount(es: seq<Event>): nat {
    if es == [] then 0 else (if es[0].RecordingFinished? then 1 else 0) + FinishedCount(es[1..])
  }

  /** Running a sequence of admissible events, collecting every effect. */
  function Replay(s: Screen, es: seq<Event>): (t: Transition)
    requires Valid(s) && Admissible(s, es)
    ensures Valid(t.next)
    ensures t.next.videoCount == s.videoCount + FinishedCount(es)
    decreases |es|
  {
    if es == [] then Transition(s, [])
    else
      var first := Step(s, es[0]);
      var rest := Replay(first.next, es[1..]);
      Transition(rest.next, first.effects + rest.effects)
  }

  function CountTimerTicks(es: seq<Event>): nat {
    if es == [] then 0 else (if es[0].TimerTick? then 1 else 0) + CountTimerTicks(es[1..])
  }

  function CountBlinkTicks(es: seq<Event>): nat {
    if es == [] then 0 else (if es[0].BlinkTick? then 1 else 0) + CountBlinkTicks(es[1..])
  }

  /** While a recording runs (no completion or error arrives), the elapsed time
      is the number of timer ticks and the dot has toggled once per blink tick. */
  lemma {:induction false} TicksWhileRecording(s: Screen, es: seq<Event>)
    requires Valid(s) && s.recording && Admissible(s, es)
    requires forall i :: 0 <= i < |es| ==> !es[i].RecordingFinished? && !es[i].RecordingFailed?
    ensures Replay(s, es).next.recording
    ensures Replay(s, es).next.elapsedTime == s.elapsedTime + CountTimerTicks(es)
    ensures Replay(s, es).next.blink == (if CountBlinkTicks(es) % 2 == 0 then s.blink else !s.blink)
    decreases |es|
  {
    if es != [] {
      var e := es[0];
      var next := Step(s, e).next;
      StepWhileRecording(s, e);
      TicksWhileRecording(next, es[1..]);
      assert Replay(s, es).next == Replay(next, es[1..]).next;
      assert CountTimerTicks(es) == (if e.TimerTick? then 1 else 0) + CountTimerTicks(es[1..]);
      assert CountBlinkTicks(es) == (if e.BlinkTick? then 1 else 0) + CountBlinkTicks(es[1..]);
    }
  }

  /** One event that is neither completion nor error keeps a recording running. */
  lemma StepWhileRecording(s: Screen, e: Event)
    requires Valid(s) && s.recording && Producible(s, e)
    requires !e.RecordingFinished? && !e.RecordingFailed?
    ensures Valid(Step(s, e).next) && Step(s, e).next.recording
    ensures Step(s, e).next.elapsedTime == s.elapsedTime + (if e.TimerTick? then 1 else 0)
    ensures Step(s, e).next.blink == (if e.BlinkTick? then !s.blink else s.blink)
  {
    match e {
      case RecordPressed(_) =>
      case QualityPressed(_) =>
      case CompressionProgress(_) =>
      case CompressionSettled(_, _) =>
      case TimerTick =>
      case ClockTick(_) =>
      case BlinkTick =>
    }
  }

  /** The recording overlay: red dot, timer text, date-time and address. */
  datatype Overlay = Overlay(showDot: bool, timer: string, dateTime: string, address: Option<string>)

  datatype View = View(buttonText: string, buttonEnabled: bool, overlay: Option<Overlay>, compressingBanner: bool)

  /** What the screen shows for state `s` and the address passed in by the app;
      the address line appears only for a non-empty address. */
  function Render(s: Screen, address: Option<string>): (v: View)
    ensures v.buttonEnabled <==> !s.compressing
    ensures v.buttonText == (if s.recording then "Stop" else "Record")
    ensures v.compressingBanner == s.compressing
    ensures v.overlay.Some? <==> s.recording
    ensures v.overlay.Some? ==> v.overlay.value.showDot == s.blink && v.overlay.value.dateTime == s.dateTime
    ensures v.overlay.Some? ==>
      TimeFormat.TimerFields(v.overlay.value.timer) == Some((s.elapsedTime / 60, s.elapsedTime % 60)) &&
      (|v.overlay.value.timer| == 5 <==> s.elapsedTime < 6000)
    ensures v.overlay.Some? ==> TimeFormat.ParseTime(v.overlay.value.timer) == Some(s.elapsedTime)
    ensures v.overlay.Some? && v.overlay.value.address.Some? ==>
      v.overlay.value.address == address && address.value != ""
    ensures v.overlay.Some? && address.Some? && address.value != "" ==> v.overlay.value.address.Some?
  {
    TimeFormat.FormatTimeRoundTrip(s.elapsedTime);
    var overlay :=
      if s.recording
      then Some(Overlay(s.blink, TimeFormat.FormatTime(s.elapsedTime), s.dateTime,
                        if address.Some? && address.value != "" then address else None))
      else None;
    View(ButtonText(s), ButtonEnabled(s), overlay, s.compressing)
  }

  /** Record then stop, with a camera attached, from an idle screen: the
      first press starts the capture and fixes the quality its callbacks will
      use; the second only issues the stop command. */
  lemma PressTwice(s: Screen)
    requires Valid(s) && !s.recording && !s.compressing
    ensures var s1 := s.(recording := true, elapsedTime := 0, recordingQuality := s.selectedQuality);
      && Step(s, RecordPressed(true)) == Transition(s1, [StartCapture])
      && Step(s1, RecordPressed(true)) == Transition(s1, [StopCapture])
      && Valid(s1)
  {
  }

  /** One event other than the settlement while compressing: the record button
      is disabled and no capture runs, so nothing is called and the job's
      settings stay as they were. */
  lemma StepWhileCompressing(s: Screen, e: Event)
    requires Valid(s) && s.compressing && Producible(s, e) && !e.CompressionSettled?
    ensures var t := Step(s, e);
      && Valid(t.next) && t.next.compressing && !t.next.recording
      && t.next.job == s.job && t.next.videoCount == s.videoCount && t.effects == []
  {
    match e {
      case RecordPressed(_) =>
      case QualityPressed(_) =>
      case CompressionProgress(_) =>
      case TimerTick =>
      case ClockTick(_) =>
      case BlinkTick =>
    }
  }

  /** While a compression runs (it has not settled yet), progress reports,
      quality presses and ticks call nothing and leave the job's settings, and
      so the label the success alert will use, unchanged. */
  lemma {:induction false} JobKeptWhileCompressing(s: Screen, es: seq<Event>)
    requires Valid(s) && s.compressing && Admissible(s, es)
    requires forall i :: 0 <= i < |es| ==> !es[i].CompressionSettled?
    ensures var t := Replay(s, es);
      && t.next.compressing && !t.next.recording
      && t.next.job == s.job && t.next.videoCount == s.videoCount && t.effects == []
    decreases |es|
  {
    if es != [] {
      var first := Step(s, es[0]);
      StepWhileCompressing(s, es[0]);
      JobKeptWhileCompressing(first.next, es[1..]);
      assert Replay(s, es) == Transition(Replay(first.next, es[1..]).next, first.effects + Replay(first.next, es[1..]).effects);
    }
  }

  /** A running capture that finishes, then any events the environment
      delivers while the compression runs, then the compression settling: the
      effects are exactly `handleCompression`'s calls and alert for the quality
      the capture's callbacks carry. The whole counts one video and ends
      neither recording nor compressing. */
  lemma FinishEventsSettle(s: Screen, path: string, es: seq<Event>, platform: Platform, o: SavePolicy.Outcomes)
    requires Valid(s) && s.recording
    requires Admissible(Step(s, RecordingFinished(path)).next, es)
    requires forall i :: 0 <= i < |es| ==> !es[i].CompressionSettled?
    ensures var t3 := Step(s, RecordingFinished(path));
      var m := Replay(t3.next, es);
      var t4 := Step(m.next, CompressionSettled(platform, o));
      var run := SavePolicy.HandleCompression(path, QualityMap[s.recordingQuality], platform, o);
      && Producible(m.next, CompressionSettled(platform, o))
      && t3.effects + m.effects + t4.effects == Calls(run.calls) + Shown(run.alert)
      && t4.next.videoCount == s.videoCount + 1
      && !t4.next.recording && !t4.next.compressing
  {
    var settings := QualityMap[s.recordingQuality];
    var rest := SavePolicy.AfterCompress(platform, settings.name, o);
    var t3 := Step(s, RecordingFinished(path));
    JobKeptWhileCompressing(t3.next, es);
    var m := Replay(t3.next, es);
    var t4 := Step(m.next, CompressionSettled(platform, o));
    assert t4.effects == Calls(rest.calls) + Shown(rest.alert);
    CompressThenRest(path, settings, platform, o);
    NothingBetween(t3.effects, m.effects, t4.effects);
  }

  lemma NothingBetween(a: seq<Effect>, m: seq<Effect>, b: seq<Effect>)
    requires m == []
    ensures a + m + b == a + b
  {
    assert a + m == a;
  }

  /** `handleCompression`'s effects are the compress call followed by those of
      everything after it. */
  lemma CompressThenRest(path: string, settings: Settings, platform: Platform, o: SavePolicy.Outcomes)
    ensures var run := SavePolicy.HandleCompression(path, settings, platform, o);
      var rest := SavePolicy.AfterCompress(platform, settings.name, o);
      Calls(run.calls) + Shown(run.alert)
        == [Call(SavePolicy.CompressCall(path, settings))] + (Calls(rest.calls) + Shown(rest.alert))
  {
    var run := SavePolicy.HandleCompression(path, settings, platform, o);
    var rest := SavePolicy.AfterCompress(platform, settings.name, o);
    var head := [Call(SavePolicy.CompressCall(path, settings))];
    assert run.calls == [SavePolicy.CompressCall(path, settings)] + rest.calls;
    CallsCons(SavePolicy.CompressCall(path, settings), rest.calls);
    Regroup(head, Calls(rest.calls), Shown(rest.alert));
  }

  lemma Regroup(a: seq<Effect>, b: seq<Effect>, c: seq<Effect>)
    ensures a + (b + c) == (a + b) + c
  {
  }

  lemma CallsCons(p: SavePolicy.Primitive, ps: seq<SavePolicy.Primitive>)
    ensures Calls([p] + ps) == [Call(p)] + Calls(ps)
  {
    assert ([p] + ps)[1..] == ps;
  }

  /** While a recording runs (no completion or error arrives), the quality its
      callbacks will use stays the one fixed at the press. */
  lemma {:induction false} QualityKeptWhileRecording(s: Screen, es: seq<Event>)
    requires Valid(s) && s.recording && Admissible(s, es)
    requires forall i :: 0 <= i < |es| ==> !es[i].RecordingFinished? && !es[i].RecordingFailed?
    ensures Replay(s, es).next.recording
    ensures Replay(s, es).next.recordingQuality == s.recordingQuality
    decreases |es|
  {
    if es != [] {
      var next := Step(s, es[0]).next;
      StepWhileRecording(s, es[0]);
      QualityKeptWhileRecording(next, es[1..]);
      assert Replay(s, es).next == Replay(next, es[1..]).next;
    }
  }

  /** One whole recording: record is pressed, any events the environment can
      deliver arrive while the capture runs, the capture finishes, any events
      arrive while the compression runs, and the compression settles. Quality
      presses in either stretch are ignored: the calls and the alert are those
      of `handleCompression` for the quality selected at the press. */
  lemma QualityFixedAtPress(s: Screen, es: seq<Event>, path: string, cs: seq<Event>,
                            platform: Platform, o: SavePolicy.Outcomes)
    requires Valid(s) && !s.recording && !s.compressing
    requires Admissible(Step(s, RecordPressed(true)).next, es)
    requires forall i :: 0 <= i < |es| ==> !es[i].RecordingFinished? && !es[i].RecordingFailed?
    requires Admissible(Step(Replay(Step(s, RecordPressed(true)).next, es).next, RecordingFinished(path)).next, cs)
    requires forall i :: 0 <= i < |cs| ==> !cs[i].CompressionSettled?
    ensures var r := Replay(Step(s, RecordPressed(true)).next, es).next;
      var t3 := Step(r, RecordingFinished(path));
      var m := Replay(t3.next, cs);
      var t4 := Step(m.next, CompressionSettled(platform, o));
      var run := SavePolicy.HandleCompression(path, QualityMap[s.selectedQuality], platform, o);
      t3.effects + m.effects + t4.effects == Calls(run.calls) + Shown(run.alert)
  {
    var s1 := Step(s, RecordPressed(true)).next;
    QualityKeptWhileRecording(s1, es);
    FinishEventsSettle(Replay(s1, es).next, path, cs, platform, o);
  }
}

=== FILE: savepolicy.dfy ===
/** What `handleCompression` does with a recorded file: compress it, read its
    size, save it by a strategy that depends on platform and OS version, and
    raise one alert. Every platform call is an input outcome. */
module SavePolicy {
  import opened Base
  import opened Quality

  /** From this Android API level (Android 13) the gallery save is tried first. */
  const GalleryFirstApiLevel := 33

  /** The compressor options fixed by the code besides `maxSize`. */
  const CompressFps := 15
  const MinimumBitrate := 500000
  const CompressionMethod := "auto"
  const RemoveAudio := false

  /** Error text used when the thrown value has no usable message. */
  const DefaultErrorText := "Video compression failed"

  /** The platform calls `handleCompression` can make. */
  datatype Primitive =
    | CompressVideo(source: string, compressionMethod: string, maxSize: nat, fps: nat,
                    removeAudio: bool, minimumBitrate: nat) // Video.compress
    | StatFile     // RNFS.stat of the compressed file
    | GallerySave  // CameraRoll.save(compressedPath, {type: "video"})
    | CopyToDcim   // RNFS.copyFile into DCIM/Camera/vid_<timestamp>.mp4

  /** How one awaited call settled; a rejection may carry an `err.message`. */
  datatype Outcome = Resolved | Rejected(message: Option<string>)

  /** The outcome each primitive would have if it were called. */
  datatype Outcomes = Outcomes(compress: Outcome, stat: Outcome, gallery: Outcome, copy: Outcome)

  /** The calls made, in order, and the alert shown, if any. */
  datatype Run = Run(calls: seq<Primitive>, alert: Option<Alert>)

  function OutcomeOf(o: Outcomes, p: Primitive): Outcome {
    match p
    case CompressVideo(_, _, _, _, _, _) => o.compress
    case StatFile => o.stat
    case GallerySave => o.gallery
    case CopyToDcim => o.copy
  }

  /** `err?.message || "Video compression failed"`: an absent or empty message
      falls back to the fixed text. */
  function ErrorText(message: Option<string>): (t: string)
    ensures t != ""
    ensures message.Some? && message.value != "" ==> t == message.value
    ensures message.None? || message.value == "" ==> t == DefaultErrorText
  {
    if message.Some? && message.value != "" then message.value else DefaultErrorText
  }

  function ErrorAlert(o: Outcome): Alert
    requires o.Rejected?
  {
    Alert("Error", ErrorText(o.message))
  }

  function SavedIn(qualityName: string): Alert {
    Alert("Success", "Video saved in " + qualityName)
  }

  const SavedToDcim := Alert("Success", "Video saved to DCIM/Camera")

  /** The call `handleCompression` starts with. */
  function CompressCall(path: string, settings: Settings): Primitive {
    CompressVideo("file://" + path, CompressionMethod, settings.maxSize, CompressFps, RemoveAudio, MinimumBitrate)
  }

  /** The platform branch, with the outer catch turning a rejection into the
      error alert. On Android 13+ a rejected gallery save is caught locally and
      replaced by the DCIM copy; a successful gallery save there shows nothing. */
  function Save(platform: Platform, qualityName: string, o: Outcomes): (r: Run)
    ensures 1 <= |r.calls| <= 2
    // only the gallery save and the DCIM copy, the copy coming second when both are made
    ensures r.calls in {[GallerySave], [CopyToDcim], [GallerySave, CopyToDcim]}
    ensures r.alert.Some? ==> r.alert.value.title == "Success" || r.alert.value.title == "Error"
    ensures r.alert.Some? && r.alert.value.title == "Success" ==>
      r.alert.value == (if platform.Android? && platform.apiLevel < GalleryFirstApiLevel then SavedToDcim else SavedIn(qualityName))
  {
    match platform
    case Android(level) =>
      if level >= GalleryFirstApiLevel then
        if o.gallery.Resolved? then Run([GallerySave], None)
        else if o.copy.Resolved? then Run([GallerySave, CopyToDcim], Some(SavedIn(qualityName)))
        else Run([GallerySave, CopyToDcim], Some(ErrorAlert(o.copy)))
      else
        if o.copy.Resolved? then Run([CopyToDcim], Some(SavedToDcim))
        else Run([CopyToDcim], Some(ErrorAlert(o.copy)))
    case Ios =>
      if o.gallery.Resolved? then Run([GallerySave], Some(SavedIn(qualityName)))
      else Run([GallerySave], Some(ErrorAlert(o.gallery)))
  }

  /** Everything after `Video.compress` has settled: the size lookup, the save,
      and the single alert. */
  function AfterCompress(platform: Platform, qualityName: string, o: Outcomes): (r: Run)
    ensures o.compress.Rejected? ==> r == Run([], Some(ErrorAlert(o.compress)))
    ensures o.compress.Resolved? && o.stat.Rejected? ==> r == Run([StatFile], Some(ErrorAlert(o.stat)))
    ensures o.compress.Resolved? ==> 1 <= |r.calls| && r.calls[0] == StatFile
  {
    if o.compress.Rejected? then Run([], Some(ErrorAlert(o.compress)))
    else if o.stat.Rejected? then Run([StatFile], Some(ErrorAlert(o.stat)))
    else
      var saved := Save(platform, qualityName, o);
      Run([StatFile] + saved.calls, saved.alert)
  }

  /** The whole of `handleCompression` for one recorded file. */
  function HandleCompression(path: string, settings: Settings, platform: Platform, o: Outcomes): (r: Run)
    ensures 1 <= |r.calls| <= 4
    ensures r.calls[0] == CompressVideo("file://" + path, "auto", settings.maxSize, 15, false, 500000)
    ensures forall i :: 1 <= i < |r.calls| ==> !r.calls[i].CompressVideo?
    // no primitive is called twice
    ensures forall i, j :: 0 <= i < j < |r.calls| ==> r.calls[i] != r.calls[j]
    // the size is read exactly when compression resolved
    ensures StatFile in r.calls <==> o.compress.Resolved?
    ensures GallerySave in r.calls <==>
      o.compress.Resolved? && o.stat.Resolved? && (platform.Ios? || platform.apiLevel >= 33)
    ensures CopyToDcim in r.calls <==>
      o.compress.Resolved? && o.stat.Resolved? && platform.Android? &&
      (platform.apiLevel < 33 || o.gallery.Rejected?)
    // the one alert, if any, is either the success or the error alert
    ensures r.alert.Some? ==> r.alert.value.title == "Success" || r.alert.value.title == "Error"
  {
    var rest := AfterCompress(platform, settings.name, o);
    Run([CompressCall(path, settings)] + rest.calls, rest.alert)
  }

  /** Primary before fallback, never both successful: the DCIM copy comes only
      after a gallery save that was rejected, and after a successful gallery
      save nothing else is called. */
  lemma FallbackOnlyAfterRejection(path: string, settings: Settings, platform: Platform, o: Outcomes)
    ensures var r := HandleCompression(path, settings, platform, o);
      forall i, j :: 0 <= i < |r.calls| && 0 <= j < |r.calls| && r.calls[i] == GallerySave && r.calls[j] == CopyToDcim ==>
        i < j && o.gallery.Rejected? && platform.Android?
    ensures var r := HandleCompression(path, settings, platform, o);
      forall i :: 0 <= i < |r.calls| && r.calls[i] == GallerySave && o.gallery.Resolved? ==> i == |r.calls| - 1
  {
  }

  /** The run goes on while calls resolve and stops at the first rejection the
      code does not catch; exactly then the alert is the error alert carrying
      that rejection's message. Only a successful gallery save on Android 13+
      ends without any alert. */
  lemma StopsAtFirstUncaughtRejection(path: string, settings: Settings, platform: Platform, o: Outcomes)
    ensures var r := HandleCompression(path, settings, platform, o);
      forall i :: 0 <= i < |r.calls| - 1 ==>
        OutcomeOf(o, r.calls[i]).Resolved? || (r.calls[i] == GallerySave && r.calls[i + 1] == CopyToDcim)
    ensures var r := HandleCompression(path, settings, platform, o);
      var last := OutcomeOf(o, r.calls[|r.calls| - 1]);
      (r.alert.Some? && r.alert.value.title == "Error" <==> last.Rejected?) &&
      (last.Rejected? ==> r.alert == Some(Alert("Error", ErrorText(last.message))))
    ensures var r := HandleCompression(path, settings, platform, o);
      r.alert.None? <==>
        platform.Android? && platform.apiLevel >= 33 && r.calls[|r.calls| - 1] == GallerySave && o.gallery.Resolved?
  {
    var r := HandleCompression(path, settings, platform, o);
    var c := CompressCall(path, settings);
    assert OutcomeOf(o, c) == o.compress;
    if o.compress.Rejected? {
      assert r.calls == [c];
    } else if o.stat.Rejected? {
      assert r.calls == [c, StatFile];
    } else {
      var saved := Save(platform, settings.name, o);
      assert r.calls == [c, StatFile] + saved.calls;
      if |saved.calls| == 2 {
        assert r.calls == [c, StatFile, GallerySave, CopyToDcim];
      } else {
        assert r.calls == [c, StatFile, saved.calls[0]];
      }
    }
  }

  /** A success alert names the chosen quality, except after the plain copy on
      Android 12 and older, which names the folder instead. */
  lemma SuccessAlertText(path: string, settings: Settings, platform: Platform, o: Outcomes)
    ensures var r := HandleCompression(path, settings, platform, o);
      r.alert.Some? && r.alert.value.title == "Success" ==>
        r.alert.value == (if platform.Android? && platform.apiLevel < 33 then SavedToDcim else SavedIn(settings.name))
  {
  }
}

=== FILE: timeformat.dfy ===
/** The `MM:SS` timer text shown while recording (`formatTime`), with the
    decimal rendering it relies on and a reader that inverts it. */
module TimeFormat {
  import opened Base

  predicate IsDigit(c: char) {
    '0' <= c <= '9'
  }

  predicate AllDigits(s: string) {
    forall i :: 0 <= i < |s| ==> IsDigit(s[i])
  }

  function DigitChar(d: nat): (c: char)
    requires d < 10
    ensures IsDigit(c)
  {
    (('0' as int) + d) as char
  }

  function DigitValue(c: char): (d: nat)
    requires IsDigit(c)
    ensures d < 10
  {
    (c as int) - ('0' as int)
  }

  /** `String(n)` for a non-negative integer: its decimal digits, with no
      leading zero except for zero itself. */
  function Decimal(n: nat): (s: string)
    ensures 1 <= |s|
    ensures AllDigits(s)
    ensures s[0] == '0' ==> n == 0
    decreases n
  {
    if n < 10 then [DigitChar(n)] else Decimal(n / 10) + [DigitChar(n % 10)]
  }

  /** The number a run of decimal digits denotes; leading zeros are allowed. */
  function DecimalValue(s: string): nat
    requires AllDigits(s)
  {
    if |s| == 0 then 0 else DecimalValue(s[..|s| - 1]) * 10 + DigitValue(s[|s| - 1])
  }

  /** `s.padStart(width, pad)` with a one-character pad string. */
  function PadStart(s: string, width: nat, pad: char): (r: string)
    ensures |r| == if |s| < width then width else |s|
    ensures r[|r| - |s|..] == s
    ensures forall i :: 0 <= i < |r| - |s| ==> r[i] == pad
  {
    if |s| < width then seq(width - |s|, _ => pad) + s else s
  }

  /** A two-wide zero-padded field, as `formatTime` builds both of its halves. */
  function Field(n: nat): string {
    PadStart(Decimal(n), 2, '0')
  }

  /** `formatTime(seconds)`: the whole minutes padded to at least two digits, a
      colon, then the remaining seconds padded to two digits. */
  function FormatTime(seconds: nat): (r: string)
    ensures |r| >= 5 && r[|r| - 3] == ':'
    ensures AllDigits(r[..|r| - 3]) && AllDigits(r[|r| - 2..])
    ensures |r| == 5 <==> seconds < 6000
  {
    FieldShape(seconds / 60);
    FieldShape(seconds % 60);
    Joined(Field(seconds / 60), Field(seconds % 60));
    Field(seconds / 60) + ":" + Field(seconds % 60)
  }

  /** Splits a timer text at the colon third from the end into the minutes
      and the two-character seconds part. */
  function SplitTimer(t: string): Option<(string, string)> {
    if |t| >= 3 && t[|t| - 3] == ':' then Some((t[..|t| - 3], t[|t| - 2..])) else None
  }

  /** Reads the two fields of a timer text as numbers: a non-empty run of
      digits before the colon and exactly two digits after it. */
  function TimerFields(t: string): Option<(nat, nat)> {
    match SplitTimer(t)
    case None => None
    case Some((minutes, secs)) =>
      if |minutes| > 0 && |secs| == 2 && AllDigits(minutes) && AllDigits(secs)
      then Some((DecimalValue(minutes), DecimalValue(secs)))
      else None
  }

  /** Reads a timer text back as a number of seconds. */
  function ParseTime(t: string): Option<nat> {
    match TimerFields(t)
    case None => None
    case Some((minutes, secs)) => Some(minutes * 60 + secs)
  }

  lemma {:induction false} DecimalRoundTrip(n: nat)
    ensures DecimalValue(Decimal(n)) == n
    decreases n
  {
    if n >= 10 {
      var s := Decimal(n);
      assert s[..|s| - 1] == Decimal(n / 10);
      DecimalRoundTrip(n / 10);
    }
  }

  lemma {:induction false} ZerosHaveNoValue(z: string)
    requires forall i :: 0 <= i < |z| ==> z[i] == '0'
    ensures AllDigits(z) && DecimalValue(z) == 0
    decreases |z|
  {
    if |z| > 0 {
      ZerosHaveNoValue(z[..|z| - 1]);
    }
  }

  lemma {:induction false} ZeroPaddingKeepsValue(z: string, s: string)
    requires forall i :: 0 <= i < |z| ==> z[i] == '0'
    requires AllDigits(s)
    ensures AllDigits(z + s)
    ensures DecimalValue(z + s) == DecimalValue(s)
    decreases |s|
  {
    ZerosHaveNoValue(z);
    if |s| == 0 {
      assert z + s == z;
    } else {
      var t := z + s;
      assert t[..|t| - 1] == z + s[..|s| - 1];
      ZeroPaddingKeepsValue(z, s[..|s| - 1]);
    }
  }

  /** At most two digits exactly for the numbers below 100. */
  lemma DecimalWidth(n: nat)
    ensures |Decimal(n)| <= 2 <==> n < 100
  {
    if n >= 10 {
      assert |Decimal(n)| == |Decimal(n / 10)| + 1;
      if n / 10 >= 10 {
        assert |Decimal(n / 10)| == |Decimal(n / 100)| + 1;
      }
    }
  }

  /** A padded field is all digits, at least two wide, and exactly two wide
      for the numbers below 100. */
  lemma FieldShape(n: nat)
    ensures AllDigits(Field(n)) && |Field(n)| >= 2
    ensures |Field(n)| == 2 <==> n < 100
  {
    var d := Decimal(n);
    var f := Field(n);
    var z := f[..|f| - |d|];
    assert f == z + d;
    ZeroPaddingKeepsValue(z, d);
    DecimalWidth(n);
  }

  /** A padded field is all digits and still denotes its number. */
  lemma FieldValue(n: nat)
    ensures AllDigits(Field(n)) && DecimalValue(Field(n)) == n
  {
    var d := Decimal(n);
    var f := Field(n);
    var z := f[..|f| - |d|];
    assert f == z + d;
    ZeroPaddingKeepsValue(z, d);
    DecimalRoundTrip(n);
  }

  /** Joining two digit fields with a colon keeps them apart at the colon. */
  lemma Joined(m: string, c: string)
    requires AllDigits(m) && AllDigits(c) && |c| == 2
    ensures var r := m + ":" + c;
      |r| == |m| + 3 && r[|r| - 3] == ':' && r[..|r| - 3] == m && r[|r| - 2..] == c
  {
  }

  /** Splitting a joined text gives back its two parts. */
  lemma SplitJoined(m: string, c: string)
    requires |c| == 2
    ensures SplitTimer(m + ":" + c) == Some((m, c))
  {
    var t := m + ":" + c;
    assert t[..|t| - 3] == m;
    assert t[|t| - 2..] == c;
  }

  /** Reading a digit field, a colon and a two-digit field. */
  lemma ParseJoined(m: string, c: string)
    requires AllDigits(m) && AllDigits(c) && |m| > 0 && |c| == 2
    ensures TimerFields(m + ":" + c) == Some((DecimalValue(m), DecimalValue(c)))
  {
    SplitJoined(m, c);
  }

  /** Two padded fields joined by a colon read back as their numbers. */
  lemma ParseFields(minutes: nat, secs: nat)
    requires secs < 60
    ensures TimerFields(Field(minutes) + ":" + Field(secs)) == Some((minutes, secs))
  {
    FieldShape(minutes);
    FieldShape(secs);
    FieldValue(minutes);
    FieldValue(secs);
    ParseJoined(Field(minutes), Field(secs));
  }

  /** Reading the timer text back yields the number of seconds it was made
      from: the field after the colon is the remainder below 60 and the one
      before it the whole minutes. */
  lemma FormatTimeRoundTrip(seconds: nat)
    ensures TimerFields(FormatTime(seconds)) == Some((seconds / 60, seconds % 60))
    ensures ParseTime(FormatTime(seconds)) == Some(seconds)
  {
    ParseFields(seconds / 60, seconds % 60);
  }

  /** The minutes are padded to two digits and no further: a leading zero
      appears only while the whole minutes are below 10. */
  lemma FormatTimePadsOnlyToTwo(seconds: nat)
    ensures FormatTime(seconds)[0] == '0' ==> seconds < 600
  {
    DecimalWidth(seconds / 60);
  }

  /** Distinct elapsed times are displayed as distinct texts. */
  lemma FormatTimeInjective(a: nat, b: nat)
    ensures a != b ==> FormatTime(a) != FormatTime(b)
  {
    FormatTimeRoundTrip(a);
    FormatTimeRoundTrip(b);
  }
}
